=== FILE: README.md ===
# Rule-engine equivalence checking, modelled in Dafny

This project models the core of a set of scripts that use an SMT solver to reason about business-rule workflows.

- **The ticket.** It is a record of integer fields, `a`..`d` in one script and `a`, `b` in the other.
- **A rule.** It has a condition on the current ticket and an action that relates the current ticket to the next one.
- **A workflow.** It is an ordered chain of rule steps over time indices 0..N. Each step is encoded as `If(condition(cur), action(cur, next), unchanged(cur, next))`.
- **`behaviours.py`.** It unrolls an old workflow (C Updater, pad, D Updater) and a new one (C Updater, C2 Updater, D Updater) from shared initial symbols. It then asks the solver whether some initial ticket in the box [0, 20]⁴ makes the final tickets differ.
- **`simple_behaviour.py`.** It unrolls a two-rule chain and asks whether `a_2 == 17` is reachable from a in [0, 10], b in [0, 5].
- **`presentationutils.py`.** Its `force_new_solution` asserts a blocking clause built from the solver's last model, so that the next check yields a different solution.

The project has five modules:

- **`Symbolic`** (`symbolic.dfy`): the solver's term and formula language, which the scripts use.
  - `Holds` evaluates a formula under an assignment `Env`.
  - `Satisfiable` is what a `sat` answer means.
- **`Solving`** (`solving.dfy`):
  - the solver session, as a class whose `assertions` sequence `Add` extends;
  - the models the solver returns.
- **`PresentationUtils`** (`presentation_utils.dfy`): the blocking clause and `ForceNewSolution`.
- **`Behaviours`** (`behaviours.dfy`) and **`SimpleBehaviour`** (`simple_behaviour.dfy`): each does four things.
  - It gives the rules a concrete meaning on tickets: `Fires`, `Act`, `Next`, and `Trace`/`Final` or `Outcome`.
  - It builds the constraints exactly as the scripts do, over symbolic state dictionaries.
  - It models the script body as a method that fills a fresh `Solver`.
  - It proves that the constraints mean what the concrete rules do, and what the solver's answer is.

Two points about the scripts' behaviour:

- **No validation.** The scripts do not check that both workflows declare the same fields, or that every rule pins every field. Here every field set is fixed by the `Ticket` datatype, so no mismatch can arise.
- **When the finals differ.** From a = 20, b = 20 the final tickets differ whatever d is: field c ends at 20 in the old workflow and at 0 in the new one. `Behaviours.Divergence` proves the exact condition: a > 10, and b > 10 or c ≠ 0.

## Model

| member | source | states |
|---|---|---|
| Solving.Solver.constructor | behaviours.py:40 | A new solver session holds no constraints. |
| Solving.Solver.Add | behaviours.py:45-48 | `add` appends its arguments in order and keeps every earlier constraint. |
| Solving.AsEnvAgrees | presentationutils.py:7 | The assignment a model stands for gives every constant of the model its value. |
| PresentationUtils.ForceNewSolution | presentationutils.py:6-8 | The call succeeds iff `m` has a constant. On success the session's constraints grow by exactly the blocking clause of `m`, and the earlier ones are unchanged. For a model without constants, `Or([])` raises and the constraints stay as they were. |
| PresentationUtils.DisequalitiesMeaning | presentationutils.py:8 | The disjunction of the disequalities holds iff some arity-0 declaration's symbol has a value other than its value in the model. |
| PresentationUtils.BlockingClauseExcludesExactly | presentationutils.py:8 | The clause holds under an assignment iff that assignment disagrees with `m` on some constant. |
| PresentationUtils.BlockingClauseRejectsItsModel | presentationutils.py:7-8 | The clause is false under the model it was built from. |
| PresentationUtils.OnlyConstantsContribute | presentationutils.py:8 | A declaration of positive arity, anywhere in the model, leaves the clause unchanged. |
| PresentationUtils.NoDisequalitiesIffNoConstants | presentationutils.py:8 | The comprehension yields no disjunct iff the model lists no declaration of arity 0. |
| PresentationUtils.ModelsAfterBlocking | presentationutils.py:6-8 | After the call, the models are exactly the models of the old constraints that differ from `m` on some constant. |
| PresentationUtils.NextSolutionIsNew | presentationutils.py:6-8 | The model just blocked is not a model of the new constraint set. |
| Behaviours.RuleEffects | behaviours.py:50-105 | Each rule's effects:<br>- C Updater sets c := 20 when b > 10;<br>- D Updater sets d := 0 when c > 10;<br>- C2 Updater sets c := 0 when a > 10;<br>- otherwise, and at a pad, the ticket is unchanged. |
| Behaviours.FinalKeepsAB | behaviours.py:50-96 | No workflow changes a or b. |
| Behaviours.FinalsAgreeOnAB | behaviours.py:164-165 | Any two workflows' final tickets from the same start agree on a and b. |
| Behaviours.FinalUnfold | behaviours.py:107-157 | The final ticket of a workflow is its last step applied to the final ticket of the steps before it. |
| Behaviours.OldFinal | behaviours.py:109-132 | The old workflow's final ticket is D Updater after C Updater. The pad does nothing. |
| Behaviours.NewFinal | behaviours.py:134-157 | The new workflow's final ticket is D Updater after C2 Updater after C Updater. |
| Behaviours.Divergence | behaviours.py:107-173 | The two final tickets differ iff a > 10 and (b > 10 or c ≠ 0) initially. |
| Behaviours.AgreeWhenALow | behaviours.py:83-86 | Whenever a ≤ 10 initially, the two final tickets agree. |
| Behaviours.Counterexample | behaviours.py:164-173 | From (20, 20, 0, 5), the old workflow ends at (20, 20, 20, 0) and the new one at (20, 20, 0, 5). |
| Behaviours.DeclareStates | behaviours.py:3-38 | The loop over t = 1, 2, 3 yields dictionaries for t = 0..3:<br>- both share the t = 0 symbols;<br>- each workflow has its own symbols at later times. |
| Behaviours.SymbolsDistinct | behaviours.py:3-38 | Two state dictionaries share a symbol only at t = 0 and for the same field. Distinct fields, times or workflows never alias. |
| Behaviours.BuildPins | behaviours.py:55-105 | The builders' loop over the keys produces the conjunction `Pins` specifies, one equation per field in key order. |
| Behaviours.BuildStep | behaviours.py:50-157 | A step built as the script builds it, the rule's conditions guarding its transition against `unchanged`, with both built by the key loop, is exactly the step constraint `StepMeaning` interprets. A pad is `unchanged` alone. |
| Behaviours.FieldsPinned | behaviours.py:55-105 | A transition holds iff the next ticket is the previous one with the rule's single assignment. `unchanged` holds iff the next ticket equals the previous one. |
| Behaviours.StepMeaning | behaviours.py:110-157 | A step's `If(condition, transition, unchanged)` constraint, or a pad's `unchanged`, holds iff the next ticket is `Next` of the previous one. Each step therefore has exactly one successor. |
| Behaviours.WorkflowMeaning | behaviours.py:107-157 | A workflow's step constraints hold iff the values of its state chain are the concrete trace from the chain's first ticket. |
| Behaviours.DomainMeaning | behaviours.py:42-48 | The domain constraints hold iff every initial field lies in [0, 20]. |
| Behaviours.DiffersMeaning | behaviours.py:161-173 | The final disjunction holds iff the two final tickets differ. |
| Behaviours.AddDomain | behaviours.py:45-48 | The four `add` calls assert exactly the domain constraints, field by field. |
| Behaviours.BuildConstraints | behaviours.py:107-157 | Appending the six steps, each built by `BuildStep`, gives the old workflow's constraints followed by the new workflow's. |
| Behaviours.OldSteps | behaviours.py:109-132 | The old workflow's constraints are the C Updater step, the pad's `unchanged` and the D Updater step, over the old symbols. |
| Behaviours.NewSteps | behaviours.py:134-157 | The new workflow's constraints are the three rule steps over the new symbols. |
| Behaviours.EquivalenceCheck | behaviours.py:3-173 | The script body leaves in a fresh solver exactly the equivalence query of the old and new workflows, with the state dictionaries `DeclareStates` describes. |
| Behaviours.QueryModels | behaviours.py:40-173 | A model of the query is exactly three things:<br>- an in-domain initial ticket;<br>- both workflows' traces from that ticket;<br>- final tickets that differ. |
| Behaviours.QueryMeaning | behaviours.py:40-173 | For any two equal-length workflows, the query is satisfiable iff some in-domain initial ticket makes their final tickets differ. |
| Behaviours.CounterexampleIsModel | behaviours.py:161-173 | Every in-domain initial ticket on which the workflows differ yields a model of the query. The returned model's old and new symbol chains take the values of the two workflows' traces from that ticket. |
| Behaviours.WorkflowsNotEquivalent | behaviours.py:159-173 | The script's query is satisfiable: the workflows are not equivalent on the domain box. |
| Behaviours.SameWorkflowEquivalent | behaviours.py:107-173 | Comparing a workflow with itself gives an unsatisfiable query. |
| SimpleBehaviour.ReachabilityCheck | simple_behaviour.py:13-110 | The script body leaves in a fresh solver exactly the reachability query. |
| SimpleBehaviour.ConditionMeaning | simple_behaviour.py:42-63 | Rule 1's condition holds iff a > 5. Rule 2's holds iff a > 6 and b ≥ 10. |
| SimpleBehaviour.ActionMeaning | simple_behaviour.py:47-71 | Rule 1's action holds iff the next ticket is (a, b + 5). Rule 2's holds iff it is (a + b, b). |
| SimpleBehaviour.UnchangedMeaning | simple_behaviour.py:73-79 | `unchanged` holds iff both fields carry over. |
| SimpleBehaviour.StepMeaning | simple_behaviour.py:82-106 | A guarded step holds iff the next ticket is the rule's application to the current one. |
| SimpleBehaviour.DomainMeaning | simple_behaviour.py:37-40 | The domain constraints hold iff a is in [0, 10] and b is in [0, 5]. |
| SimpleBehaviour.QueryModels | simple_behaviour.py:35-110 | A model is an in-domain initial ticket, the two rule applications from it, and a final a of 17. |
| SimpleBehaviour.QueryMeaning | simple_behaviour.py:108-110 | The query is satisfiable iff some in-domain initial ticket ends the chain with a = 17. |
| SimpleBehaviour.Rule2Idle | simple_behaviour.py:95-106 | If rule 2 does not fire, the final a is the initial a, which is at most 10. |
| SimpleBehaviour.BothRulesFire | simple_behaviour.py:42-71 | Reaching a = 17 requires both rules to fire. |
| SimpleBehaviour.UniqueWitness | simple_behaviour.py:108-110 | The in-domain initial tickets that reach a = 17 are exactly (7, 5). |
| SimpleBehaviour.QueryAnswer | simple_behaviour.py:108-110 | The query is satisfiable, and every model passes through (7, 5), (7, 10) and (17, 10). |

## Left out

- Deciding satisfiability (`check`, SAT/UNSAT/UNKNOWN, timeouts) belongs to the solver library. Each query's meaning is stated instead as `Symbolic.Satisfiable` of the asserted list, and proved equivalent to an existential over concrete initial tickets.
- `s.model()` is not modelled; `ForceNewSolution` takes the model as a parameter. For a declaration of positive arity, only a placeholder value is kept, because the blocking clause never reads it.
- PresentationUtils.ForceNewSolution: the exception that `Or([])` raises for a model without constants becomes the result `ok == false`, with the constraints unchanged. This follows current releases of the Python bindings. Some older releases returned `False` for an empty `Or` instead, which would block every later solution; that behaviour is not modelled.
- Constants' values are modelled as integers (`Decl.value: int`), although a caller may declare constants of other sorts, such as the sequence-of-integers constant `seq` (`SeqSort(IntSort())`) in sequences.py. The blocking clause only compares values for equality, so its properties do not depend on the sort.
- Symbol names are kept as structured `Name` values: field, time, and an old/new suffix. The string formatting `f"{var}_{t}_old"` and printing are left out. `SymbolsDistinct` states the property the naming scheme exists for.
- The solver's arithmetic is unbounded integers, as in the scripts, so no wrap-around arises.
- Equivalence is proved only up to the scripts' bounded horizon: workflows of equal length, three steps in the script.
- sequences.py, dogs_cats_mice.py, basic_constraints.py, conflicts.py and system_of_equations.py are not part of this model. They are one-off constraint lists handed to the solver, with no logic of their own.

=== FILE: behaviours.dfy ===
/** The business-rule equivalence check: a ticket with four integer fields
    a, b, c, d passes through an ordered chain of rules, each of which fires
    when its condition holds of the current ticket and otherwise leaves the
    ticket as it is. The old workflow (C Updater, D Updater) and the new one
    (C Updater, C2 Updater, D Updater) are unrolled over time indices 0..3,
    the old one padded with a no-op step, and the solver is asked whether
    some initial ticket in the domain box makes their final tickets differ.

    The constraint builders are modelled as they are written, over symbolic
    states; Next, Trace and Final give the same rules a concrete meaning,
    and the lemmas prove that the constraints say exactly that. */
module Behaviours {
  import opened Symbolic
  import opened Solving

  datatype Option<T> = None | Some(value: T)

  datatype Field = A | B | C | D

  /** The key order of every state dictionary. */
  const Fields: seq<Field> := [A, B, C, D]

  function FieldName(f: Field): char
  {
    match f
    case A => 'a'
    case B => 'b'
    case C => 'c'
    case D => 'd'
  }

  /** A ticket at one point in time. */
  datatype Ticket = Ticket(a: int, b: int, c: int, d: int)

  function Get(s: Ticket, f: Field): int
  {
    match f
    case A => s.a
    case B => s.b
    case C => s.c
    case D => s.d
  }

  /** The ticket with field f set to v and every other field kept. */
  function Set(s: Ticket, f: Field, v: int): (r: Ticket)
    ensures Get(r, f) == v
    ensures forall g :: g != f ==> Get(r, g) == Get(s, g)
  {
    match f
    case A => s.(a := v)
    case B => s.(b := v)
    case C => s.(c := v)
    case D => s.(d := v)
  }

  lemma TicketsEqualByFields(s: Ticket, t: Ticket)
    requires forall f :: Get(s, f) == Get(t, f)
    ensures s == t
  {
    assert Get(s, A) == Get(t, A) && Get(s, B) == Get(t, B);
    assert Get(s, C) == Get(t, C) && Get(s, D) == Get(t, D);
  }

  // ---------------------------------------------------------------------
  // Rules, concretely

  datatype Rule = CUpdater | DUpdater | C2Updater

  /** The single assignment a rule's action performs. */
  datatype Assign = Assign(field: Field, value: int)

  function Assignment(r: Rule): Assign
  {
    match r
    case CUpdater => Assign(C, 20)
    case DUpdater => Assign(D, 0)
    case C2Updater => Assign(C, 0)
  }

  /** The rule's condition on the ticket it is run on. */
  predicate Fires(r: Rule, s: Ticket)
  {
    match r
    case CUpdater => s.b > 10
    case DUpdater => s.c > 10
    case C2Updater => s.a > 10
  }

  /** The ticket the rule's action produces. */
  function Act(r: Rule, s: Ticket): Ticket
  {
    Set(s, Assignment(r).field, Assignment(r).value)
  }

  /** A workflow step: a rule, or a pad that only advances time. */
  datatype Step = Run(rule: Rule) | Pad

  /** The one successor of a ticket under a step. */
  function Next(step: Step, s: Ticket): Ticket
  {
    match step
    case Pad => s
    case Run(r) => if Fires(r, s) then Act(r, s) else s
  }

  /** The tickets at time indices 0..|w| when workflow w runs from s0. */
  function Trace(w: seq<Step>, s0: Ticket): (tr: seq<Ticket>)
    ensures |tr| == |w| + 1 && tr[0] == s0
  {
    [s0] + if w == [] then [] else Trace(w[1..], Next(w[0], s0))
  }

  function Final(w: seq<Step>, s0: Ticket): Ticket
  {
    Trace(w, s0)[|w|]
  }

  /** The old workflow, padded where the new one runs C2 Updater. */
  const OldWorkflow: seq<Step> := [Run(CUpdater), Pad, Run(DUpdater)]

  const NewWorkflow: seq<Step> := [Run(CUpdater), Run(C2Updater), Run(DUpdater)]

  /** Every initial field lies in [0, 20]. */
  predicate InDomain(s: Ticket)
  {
    0 <= s.a <= 20 && 0 <= s.b <= 20 && 0 <= s.c <= 20 && 0 <= s.d <= 20
  }

  /** What each rule does to a ticket, field by field, and that a pad does
      nothing. */
  lemma RuleEffects(s: Ticket)
    ensures Next(Run(CUpdater), s) == if s.b > 10 then Ticket(s.a, s.b, 20, s.d) else s
    ensures Next(Run(DUpdater), s) == if s.c > 10 then Ticket(s.a, s.b, s.c, 0) else s
    ensures Next(Run(C2Updater), s) == if s.a > 10 then Ticket(s.a, s.b, 0, s.d) else s
    ensures Next(Pad, s) == s
  {
  }

  /** No rule changes a or b. */
  lemma {:induction false} FinalKeepsAB(w: seq<Step>, s0: Ticket)
    ensures Final(w, s0).a == s0.a && Final(w, s0).b == s0.b
  {
    if w != [] {
      FinalKeepsAB(w[1..], Next(w[0], s0));
      assert Final(w, s0) == Final(w[1..], Next(w[0], s0));
    }
  }

  /** The workflow as a fold: the final ticket is the last step applied to
      the final ticket of the steps before it. */
  lemma {:induction false} FinalUnfold(w: seq<Step>, s0: Ticket)
    requires w != []
    ensures Final(w, s0) == Next(w[|w| - 1], Final(w[..|w| - 1], s0))
  {
    var tr := Trace(w, s0);
    assert tr == [s0] + Trace(w[1..], Next(w[0], s0));
    if |w| > 1 {
      FinalUnfold(w[1..], Next(w[0], s0));
      var pre := w[..|w| - 1];
      assert pre[1..] == w[1..][..|w| - 2];
      assert Trace(pre, s0) == [s0] + Trace(pre[1..], Next(pre[0], s0));
    } else {
      assert w[..0] == [];
    }
  }

  lemma OldFinal(s0: Ticket)
    ensures Final(OldWorkflow, s0) == Next(Run(DUpdater), Next(Run(CUpdater), s0))
  {
    FinalUnfold(OldWorkflow, s0);
    FinalUnfold([Run(CUpdater), Pad], s0);
    FinalUnfold([Run(CUpdater)], s0);
    assert OldWorkflow[..2] == [Run(CUpdater), Pad];
    assert [Run(CUpdater), Pad][..1] == [Run(CUpdater)];
    assert [Run(CUpdater)][..0] == [];
  }

  lemma NewFinal(s0: Ticket)
    ensures Final(NewWorkflow, s0) == Next(Run(DUpdater), Next(Run(C2Updater), Next(Run(CUpdater), s0)))
  {
    FinalUnfold(NewWorkflow, s0);
    FinalUnfold([Run(CUpdater), Run(C2Updater)], s0);
    FinalUnfold([Run(CUpdater)], s0);
    assert NewWorkflow[..2] == [Run(CUpdater), Run(C2Updater)];
    assert [Run(CUpdater), Run(C2Updater)][..1] == [Run(CUpdater)];
    assert [Run(CUpdater)][..0] == [];
  }

  /** The old and new workflows disagree on an initial ticket exactly when
      C2 Updater fires (a > 10) and the c it zeroes was not already 0. */
  lemma Divergence(s0: Ticket)
    ensures Final(OldWorkflow, s0) != Final(NewWorkflow, s0) <==> s0.a > 10 && (s0.b > 10 || s0.c != 0)
  {
    OldFinal(s0);
    NewFinal(s0);
  }

  /** Whenever a <= 10 initially, the two final tickets agree. */
  lemma AgreeWhenALow(s0: Ticket)
    requires s0.a <= 10
    ensures Final(OldWorkflow, s0) == Final(NewWorkflow, s0)
  {
    Divergence(s0);
  }

  /** The counterexample a=20, b=20, c=0, d=5: the old workflow ends with
      d=0, the new one with c=0 and d=5. */
  lemma Counterexample()
    ensures InDomain(Ticket(20, 20, 0, 5))
    ensures Final(OldWorkflow, Ticket(20, 20, 0, 5)) == Ticket(20, 20, 20, 0)
    ensures Final(NewWorkflow, Ticket(20, 20, 0, 5)) == Ticket(20, 20, 0, 5)
  {
    OldFinal(Ticket(20, 20, 0, 5));
    NewFinal(Ticket(20, 20, 0, 5));
  }

  // ---------------------------------------------------------------------
  // The constraint builders, symbolically

  /** A state dictionary: one symbolic term per field. */
  datatype SymTicket = SymTicket(a: Term, b: Term, c: Term, d: Term)

  function SymGet(s: SymTicket, f: Field): Term
  {
    match f
    case A => s.a
    case B => s.b
    case C => s.c
    case D => s.d
  }

  /** The ticket a state dictionary denotes under an assignment. */
  function Valuation(s: SymTicket, env: Env): Ticket
  {
    Ticket(Eval(s.a, env), Eval(s.b, env), Eval(s.c, env), Eval(s.d, env))
  }

  /** The symbols of time index t; at t = 0 both workflows share a_0..d_0. */
  function Vars(t: nat, tag: Tag): SymTicket
  {
    var tg := if t == 0 then Untagged else tag;
    SymTicket(Sym(Name('a', t, tg)), Sym(Name('b', t, tg)), Sym(Name('c', t, tg)), Sym(Name('d', t, tg)))
  }

  /** The state dictionaries of one workflow at time indices 0..n. */
  function Chain(n: nat, tag: Tag): seq<SymTicket>
  {
    seq(n + 1, (t: int) requires 0 <= t => Vars(t, tag))
  }

  function Condition(r: Rule, s: SymTicket): Formula
  {
    match r
    case CUpdater => Gt(s.b, Lit(10))
    case DUpdater => Gt(s.c, Lit(10))
    case C2Updater => Gt(s.a, Lit(10))
  }

  /** The value an action pins field f of the next state to. */
  function Pinned(prev: SymTicket, f: Field, update: Option<Assign>): Term
  {
    if update.Some? && f == update.value.field then Lit(update.value.value) else SymGet(prev, f)
  }

  /** The loop over the previous state's keys: one equation per field,
      `next[var] == prev[var]` or, for the updated field, its new value. */
  function Pins(prev: SymTicket, next: SymTicket, keys: seq<Field>, update: Option<Assign>): seq<Formula>
  {
    if keys == [] then []
    else [Eq(SymGet(next, keys[0]), Pinned(prev, keys[0], update))] + Pins(prev, next, keys[1..], update)
  }

  /** The three *_transition builders. */
  function Transition(r: Rule, prev: SymTicket, next: SymTicket): Formula
  {
    And(Pins(prev, next, Fields, Some(Assignment(r))))
  }

  /** unchanged: the frame axiom over every field. */
  function Unchanged(prev: SymTicket, next: SymTicket): Formula
  {
    And(Pins(prev, next, Fields, None))
  }

  /** The builders' loop itself: walks the previous state's keys in order,
      appending the equation for each key, and conjoins the list. */
  method BuildPins(prev: SymTicket, next: SymTicket, update: Option<Assign>) returns (f: Formula)
    ensures f == And(Pins(prev, next, Fields, update))
  {
    var constraints: seq<Formula> := [];
    var i := 0;
    while i < |Fields|
      invariant 0 <= i <= |Fields|
      invariant constraints + Pins(prev, next, Fields[i..], update) == Pins(prev, next, Fields, update)
    {
      var key := Fields[i];
      assert Fields[i..][1..] == Fields[i + 1..];
      if update.Some? && key == update.value.field {
        constraints := constraints + [Eq(SymGet(next, key), Lit(update.value.value))];
      } else {
        constraints := constraints + [Eq(SymGet(next, key), SymGet(prev, key))];
      }
      i := i + 1;
    }
    assert constraints + [] == constraints;
    f := And(constraints);
  }

  /** A step's constraint: If(condition, transition, unchanged) for a rule,
      unchanged for a pad. */
  function StepConstraint(step: Step, prev: SymTicket, next: SymTicket): Formula
  {
    match step
    case Pad => Unchanged(prev, next)
    case Run(r) => If(Condition(r, prev), Transition(r, prev, next), Unchanged(prev, next))
  }

  /** One step as the script builds it: the rule's conditions guarding its
      transition builder against `unchanged`, both built by the key loop;
      a pad is `unchanged` alone. */
  method BuildStep(step: Step, prev: SymTicket, next: SymTicket) returns (f: Formula)
    ensures f == StepConstraint(step, prev, next)
  {
    var same := BuildPins(prev, next, None);
    match step
    case Pad =>
      f := same;
    case Run(r) =>
      var moved := BuildPins(prev, next, Some(Assignment(r)));
      f := If(Condition(r, prev), moved, same);
  }

  /** The constraints of workflow w over the state chain `states`. */
  function WorkflowConstraints(w: seq<Step>, states: seq<SymTicket>): seq<Formula>
    requires |states| == |w| + 1
  {
    if w == [] then []
    else [StepConstraint(w[0], states[0], states[1])] + WorkflowConstraints(w[1..], states[1..])
  }

  /** The domain constraints on the initial symbols, in the order added. */
  function Domain(s: SymTicket): seq<Formula>
  {
    [Ge(s.a, Lit(0)), Le(s.a, Lit(20)), Ge(s.b, Lit(0)), Le(s.b, Lit(20)),
     Ge(s.c, Lit(0)), Le(s.c, Lit(20)), Ge(s.d, Lit(0)), Le(s.d, Lit(20))]
  }

  /** At least one field differs between two final states. */
  function Differs(s: SymTicket, t: SymTicket): Formula
  {
    Or([Ne(s.a, t.a), Ne(s.b, t.b), Ne(s.c, t.c), Ne(s.d, t.d)])
  }

  /** Everything asserted into the solver for comparing w1 (old) with w2
      (new): the domain, the conjunction of both workflows' step
      constraints, and the final-state difference. */
  function EquivalenceQuery(w1: seq<Step>, w2: seq<Step>): seq<Formula>
    requires |w1| == |w2|
  {
    Domain(Vars(0, Untagged))
    + [And(WorkflowConstraints(w1, Chain(|w1|, Old)) + WorkflowConstraints(w2, Chain(|w2|, New)))]
    + [Differs(Vars(|w1|, Old), Vars(|w2|, New))]
  }

  // ---------------------------------------------------------------------
  // The script itself

  /** The old workflow's constraints, as the script appends them. */
  lemma OldSteps()
    ensures WorkflowConstraints(OldWorkflow, Chain(3, Old)) ==
      [StepConstraint(Run(CUpdater), Vars(0, Untagged), Vars(1, Old)),
       Unchanged(Vars(1, Old), Vars(2, Old)),
       StepConstraint(Run(DUpdater), Vars(2, Old), Vars(3, Old))]
  {
    ChainOfThree(Old);
    ThreeSteps(OldWorkflow, Chain(3, Old));
  }

  /** The new workflow's constraints, as the script appends them. */
  lemma NewSteps()
    ensures WorkflowConstraints(NewWorkflow, Chain(3, New)) ==
      [StepConstraint(Run(CUpdater), Vars(0, Untagged), Vars(1, New)),
       StepConstraint(Run(C2Updater), Vars(1, New), Vars(2, New)),
       StepConstraint(Run(DUpdater), Vars(2, New), Vars(3, New))]
  {
    ChainOfThree(New);
    ThreeSteps(NewWorkflow, Chain(3, New));
  }

  /** Both workflows' constraints, as the script appends them one by one. */
  lemma ScriptConstraints(x: seq<Formula>)
    requires x == [] + [StepConstraint(Run(CUpdater), Vars(0, Untagged), Vars(1, Old))]
      + [Unchanged(Vars(1, Old), Vars(2, Old))]
      + [StepConstraint(Run(DUpdater), Vars(2, Old), Vars(3, Old))]
      + [StepConstraint(Run(CUpdater), Vars(0, Untagged), Vars(1, New))]
      + [StepConstraint(Run(C2Updater), Vars(1, New), Vars(2, New))]
      + [StepConstraint(Run(DUpdater), Vars(2, New), Vars(3, New))]
    ensures x == WorkflowConstraints(OldWorkflow, Chain(3, Old)) + WorkflowConstraints(NewWorkflow, Chain(3, New))
  {
    OldSteps();
    NewSteps();
  }

  /** The query as the script accumulates it, from an empty solver. */
  lemma QueryOfThreeSteps(x: seq<Formula>)
    requires x == WorkflowConstraints(OldWorkflow, Chain(3, Old)) + WorkflowConstraints(NewWorkflow, Chain(3, New))
    ensures EquivalenceQuery(OldWorkflow, NewWorkflow) ==
      [] + Domain(Vars(0, Untagged)) + [And(x)] + [Differs(Vars(3, Old), Vars(3, New))]
  {
    assert [] + Domain(Vars(0, Untagged)) == Domain(Vars(0, Untagged));
  }

  lemma ChainOfThree(tag: Tag)
    ensures Chain(3, tag) == [Vars(0, Untagged), Vars(1, tag), Vars(2, tag), Vars(3, tag)]
  {
    var ch := Chain(3, tag);
    assert ch[0] == Vars(0, tag) == Vars(0, Untagged);
    assert ch[1] == Vars(1, tag) && ch[2] == Vars(2, tag) && ch[3] == Vars(3, tag);
  }

  lemma ThreeSteps(w: seq<Step>, states: seq<SymTicket>)
    requires |w| == 3 && |states| == 4
    ensures WorkflowConstraints(w, states) ==
      [StepConstraint(w[0], states[0], states[1]),
       StepConstraint(w[1], states[1], states[2]),
       StepConstraint(w[2], states[2], states[3])]
  {
    assert WorkflowConstraints(w[1..][1..][1..], states[1..][1..][1..]) == [];
    assert WorkflowConstraints(w[1..][1..], states[1..][1..]) == [StepConstraint(w[2], states[2], states[3])];
    assert WorkflowConstraints(w[1..], states[1..]) ==
      [StepConstraint(w[1], states[1], states[2]), StepConstraint(w[2], states[2], states[3])];
  }

  /** The per-time dictionaries of symbols of both workflows: the shared
      a_0..d_0 at t = 0, and fresh old and new symbols at t = 1, 2, 3. */
  method DeclareStates() returns (oldVars: map<nat, SymTicket>, newVars: map<nat, SymTicket>)
    ensures oldVars.Keys == newVars.Keys == {0, 1, 2, 3}
    ensures oldVars[0] == newVars[0] == Vars(0, Untagged)
    ensures forall t | 1 <= t <= 3 :: oldVars[t] == Vars(t, Old) && newVars[t] == Vars(t, New)
  {
    oldVars := map[0 := Vars(0, Untagged)];
    newVars := map[0 := Vars(0, Untagged)];
    var t := 1;
    while t <= 3
      invariant 1 <= t <= 4
      invariant forall k: nat :: k in oldVars <==> k < t
      invariant forall k: nat :: k in newVars <==> k < t
      invariant forall k: nat | k < t :: oldVars[k] == Vars(k, Old) && newVars[k] == Vars(k, New)
    {
      oldVars := oldVars[t := Vars(t, Old)];
      newVars := newVars[t := Vars(t, New)];
      t := t + 1;
    }
    assert oldVars.Keys == newVars.Keys == {0, 1, 2, 3};
  }

  /** Asserts the domain box of the shared initial state, two bounds per
      field, field by field. */
  method AddDomain(s: Solver, s0: SymTicket)
    modifies s
    ensures s.assertions == old(s.assertions) + Domain(s0)
  {
    s.Add([Ge(s0.a, Lit(0)), Le(s0.a, Lit(20))]);
    s.Add([Ge(s0.b, Lit(0)), Le(s0.b, Lit(20))]);
    s.Add([Ge(s0.c, Lit(0)), Le(s0.c, Lit(20))]);
    s.Add([Ge(s0.d, Lit(0)), Le(s0.d, Lit(20))]);
  }

  /** The list of step constraints, appended one step at a time: the old
      workflow's three steps, then the new workflow's. */
  method BuildConstraints(oldVars: map<nat, SymTicket>, newVars: map<nat, SymTicket>) returns (constraints: seq<Formula>)
    requires oldVars.Keys == newVars.Keys == {0, 1, 2, 3}
    requires oldVars[0] == newVars[0] == Vars(0, Untagged)
    requires forall t | 1 <= t <= 3 :: oldVars[t] == Vars(t, Old) && newVars[t] == Vars(t, New)
    ensures constraints == WorkflowConstraints(OldWorkflow, Chain(3, Old)) + WorkflowConstraints(NewWorkflow, Chain(3, New))
  {
    assert oldVars[1] == Vars(1, Old) && oldVars[2] == Vars(2, Old) && oldVars[3] == Vars(3, Old);
    assert newVars[1] == Vars(1, New) && newVars[2] == Vars(2, New) && newVars[3] == Vars(3, New);
    constraints := [];
    var step := BuildStep(Run(CUpdater), oldVars[0], oldVars[1]);
    constraints := constraints + [step];
    // the pad that lines the old workflow up with the new one
    step := BuildStep(Pad, oldVars[1], oldVars[2]);
    constraints := constraints + [step];
    step := BuildStep(Run(DUpdater), oldVars[2], oldVars[3]);
    constraints := constraints + [step];
    step := BuildStep(Run(CUpdater), newVars[0], newVars[1]);
    constraints := constraints + [step];
    step := BuildStep(Run(C2Updater), newVars[1], newVars[2]);
    constraints := constraints + [step];
    step := BuildStep(Run(DUpdater), newVars[2], newVars[3]);
    constraints := constraints + [step];
    ScriptConstraints(constraints);
  }

  /** The module body: declares the states, asserts the domain, builds the
      step constraints in order, asserts their conjunction, and asserts the
      final-state difference. */
  method EquivalenceCheck() returns (s: Solver, oldVars: map<nat, SymTicket>, newVars: map<nat, SymTicket>)
    ensures fresh(s)
    ensures oldVars.Keys == newVars.Keys == {0, 1, 2, 3}
    ensures oldVars[0] == newVars[0] == Vars(0, Untagged)
    ensures forall t | 1 <= t <= 3 :: oldVars[t] == Vars(t, Old) && newVars[t] == Vars(t, New)
    ensures s.assertions == EquivalenceQuery(OldWorkflow, NewWorkflow)
  {
    oldVars, newVars := DeclareStates();
    s := new Solver();
    AddDomain(s, oldVars[0]);
    var constraints := BuildConstraints(oldVars, newVars);
    s.Add([And(constraints)]);
    assert oldVars[3] == Vars(3, Old) && newVars[3] == Vars(3, New);
    s.Add([Differs(oldVars[3], newVars[3])]);
    QueryOfThreeSteps(constraints);
  }

  // ---------------------------------------------------------------------
  // What the constraints mean

  /** No aliasing: two workflows' symbols coincide only at t = 0, and
      different fields or time indices never share a symbol. */
  lemma SymbolsDistinct(t1: nat, tag1: Tag, f1: Field, t2: nat, tag2: Tag, f2: Field)
    ensures SymGet(Vars(t1, tag1), f1) == SymGet(Vars(t2, tag2), f2)
      <==> f1 == f2 && t1 == t2 && (t1 == 0 || tag1 == tag2)
  {
    assert SymGet(Vars(t1, tag1), f1).name.field == FieldName(f1) by {
      match f1
      case A => case B => case C => case D =>
    }
    assert SymGet(Vars(t2, tag2), f2).name.field == FieldName(f2) by {
      match f2
      case A => case B => case C => case D =>
    }
  }

  lemma {:induction false} PinsMeaning(prev: SymTicket, next: SymTicket, keys: seq<Field>, update: Option<Assign>, env: Env)
    ensures AllHold(Pins(prev, next, keys, update), env)
      <==> forall i | 0 <= i < |keys| :: Eval(SymGet(next, keys[i]), env) == Eval(Pinned(prev, keys[i], update), env)
  {
    if keys != [] {
      var head := [Eq(SymGet(next, keys[0]), Pinned(prev, keys[0], update))];
      PinsMeaning(prev, next, keys[1..], update, env);
      AllHoldAppend(head, Pins(prev, next, keys[1..], update), env);
      assert AllHold(head, env) <==> Holds(head[0], env);
      if forall i | 0 <= i < |keys| - 1 :: Eval(SymGet(next, keys[1..][i]), env) == Eval(Pinned(prev, keys[1..][i], update), env) {
        forall i | 0 <= i < |keys| && i > 0
          ensures Eval(SymGet(next, keys[i]), env) == Eval(Pinned(prev, keys[i], update), env)
        {
          assert keys[i] == keys[1..][i - 1];
        }
      }
    }
  }

  /** The frame-respecting equations over all four fields pin the next
      ticket to exactly one value. */
  lemma FieldsPinned(prev: SymTicket, next: SymTicket, update: Option<Assign>, env: Env)
    ensures Holds(And(Pins(prev, next, Fields, update)), env)
      <==> Valuation(next, env) == (if update.Some? then Set(Valuation(prev, env), update.value.field, update.value.value)
                                    else Valuation(prev, env))
  {
    PinsMeaning(prev, next, Fields, update, env);
    var want := if update.Some? then Set(Valuation(prev, env), update.value.field, update.value.value) else Valuation(prev, env);
    assert forall f :: Eval(Pinned(prev, f, update), env) == Get(want, f);
    if Holds(And(Pins(prev, next, Fields, update)), env) {
      forall f ensures Get(Valuation(next, env), f) == Get(want, f) {
        var i := match f case A => 0 case B => 1 case C => 2 case D => 3;
        assert Fields[i] == f;
      }
      TicketsEqualByFields(Valuation(next, env), want);
    }
  }

  /** Each step has exactly one successor: its constraint holds of two
      states if and only if the next one is Next of the previous one. */
  lemma StepMeaning(step: Step, prev: SymTicket, next: SymTicket, env: Env)
    ensures Holds(StepConstraint(step, prev, next), env) <==> Valuation(next, env) == Next(step, Valuation(prev, env))
  {
    FieldsPinned(prev, next, None, env);
    match step
    case Pad =>
    case Run(r) =>
      FieldsPinned(prev, next, Some(Assignment(r)), env);
  }

  /** The ticket values of a chain of state dictionaries. */
  function Values(states: seq<SymTicket>, env: Env): seq<Ticket>
  {
    seq(|states|, i requires 0 <= i < |states| => Valuation(states[i], env))
  }

  /** The i-th value of a chain is the ticket its i-th dictionary denotes. */
  lemma ValuesAt(states: seq<SymTicket>, env: Env)
    ensures |Values(states, env)| == |states|
    ensures forall i | 0 <= i < |states| :: Values(states, env)[i] == Valuation(states[i], env)
  {
  }

  /** A workflow's constraints hold exactly when the chain's values are the
      trace of the workflow from the chain's first state. */
  lemma {:induction false} WorkflowMeaning(w: seq<Step>, states: seq<SymTicket>, env: Env)
    requires |states| == |w| + 1
    ensures AllHold(WorkflowConstraints(w, states), env)
      <==> Values(states, env) == Trace(w, Valuation(states[0], env))
  {
    ValuesAt(states, env);
    if w != [] {
      ValuesAt(states[1..], env);
      var v0 := Valuation(states[0], env);
      var head := [StepConstraint(w[0], states[0], states[1])];
      StepMeaning(w[0], states[0], states[1], env);
      WorkflowMeaning(w[1..], states[1..], env);
      AllHoldAppend(head, WorkflowConstraints(w[1..], states[1..]), env);
      assert AllHold(head, env) <==> Holds(head[0], env);
      assert Values(states, env) == [v0] + Values(states[1..], env) by {
        var vs, rest := Values(states, env), Values(states[1..], env);
        forall i | 1 <= i < |vs| ensures vs[i] == rest[i - 1] {
          assert states[1..][i - 1] == states[i];
        }
      }
      assert Trace(w, v0) == [v0] + Trace(w[1..], Next(w[0], v0));
      assert Values(states[1..], env)[0] == Valuation(states[1], env);
    }
  }

  lemma DomainMeaning(s: SymTicket, env: Env)
    ensures AllHold(Domain(s), env) <==> InDomain(Valuation(s, env))
  {
    var ds := Domain(s);
    if InDomain(Valuation(s, env)) {
      forall i | 0 <= i < |ds| ensures Holds(ds[i], env) {}
    }
    if AllHold(ds, env) {
      assert Holds(ds[0], env) && Holds(ds[1], env) && Holds(ds[2], env) && Holds(ds[3], env);
      assert Holds(ds[4], env) && Holds(ds[5], env) && Holds(ds[6], env) && Holds(ds[7], env);
    }
  }

  lemma DiffersMeaning(s: SymTicket, t: SymTicket, env: Env)
    ensures Holds(Differs(s, t), env) <==> Valuation(s, env) != Valuation(t, env)
  {
    var ds := [Ne(s.a, t.a), Ne(s.b, t.b), Ne(s.c, t.c), Ne(s.d, t.d)];
    if Valuation(s, env) != Valuation(t, env) {
      if Eval(s.a, env) != Eval(t.a, env) { assert Holds(ds[0], env); }
      else if Eval(s.b, env) != Eval(t.b, env) { assert Holds(ds[1], env); }
      else if Eval(s.c, env) != Eval(t.c, env) { assert Holds(ds[2], env); }
      else { assert Holds(ds[3], env); }
    }
  }

  /** The field a symbol's field character names, if any: the inverse of
      FieldName. */
  function FieldNamed(c: char): (r: Option<Field>)
    ensures r.Some? ==> FieldName(r.value) == c
    ensures forall f :: FieldName(f) == c ==> r == Some(f)
  {
    if c == 'a' then Some(A) else if c == 'b' then Some(B)
    else if c == 'c' then Some(C) else if c == 'd' then Some(D) else None
  }

  /** The value a symbol takes when both workflows start from s0 and pass
      through the states tr1 (old) and tr2 (new): the shared initial symbols
      take s0's fields, each workflow's later symbols the fields of its own
      states, and any other symbol 0. */
  function TraceValue(s0: Ticket, tr1: seq<Ticket>, tr2: seq<Ticket>, n: Name): int
  {
    match FieldNamed(n.field)
    case None => 0
    case Some(f) =>
      if n.time == 0 then Get(s0, f)
      else if n.tag == Old && n.time < |tr1| then Get(tr1[n.time], f)
      else if n.tag == New && n.time < |tr2| then Get(tr2[n.time], f)
      else 0
  }

  function TraceEnv(s0: Ticket, tr1: seq<Ticket>, tr2: seq<Ticket>): Env
  {
    n => TraceValue(s0, tr1, tr2, n)
  }

  /** The states of the workflow that owns the symbols tagged tag. */
  predicate OwnsStates(tag: Tag, s0: Ticket, tr: seq<Ticket>, tr1: seq<Ticket>, tr2: seq<Ticket>)
  {
    && (tag == Old || tag == New)
    && tr == (if tag == Old then tr1 else tr2)
    && |tr| > 0 && tr[0] == s0
  }

  /** Under TraceEnv, each workflow's chain of symbols takes the values of
      that workflow's states. */
  lemma TraceEnvValues(s0: Ticket, tr1: seq<Ticket>, tr2: seq<Ticket>, tag: Tag, tr: seq<Ticket>)
    requires OwnsStates(tag, s0, tr, tr1, tr2)
    ensures Values(Chain(|tr| - 1, tag), TraceEnv(s0, tr1, tr2)) == tr
  {
  }

  /** The query's four parts: domain, old steps, new steps, difference. */
  lemma QueryParts(w1: seq<Step>, w2: seq<Step>, env: Env)
    requires |w1| == |w2|
    ensures AllHold(EquivalenceQuery(w1, w2), env) <==>
      && AllHold(Domain(Vars(0, Untagged)), env)
      && AllHold(WorkflowConstraints(w1, Chain(|w1|, Old)), env)
      && AllHold(WorkflowConstraints(w2, Chain(|w2|, New)), env)
      && Holds(Differs(Vars(|w1|, Old), Vars(|w2|, New)), env)
  {
    QueryShape(Domain(Vars(0, Untagged)), WorkflowConstraints(w1, Chain(|w1|, Old)),
      WorkflowConstraints(w2, Chain(|w2|, New)), Differs(Vars(|w1|, Old), Vars(|w2|, New)), env);
  }

  /** A model of the query is an in-domain initial ticket, both workflows'
      traces from it, and final tickets that differ. */
  lemma QueryModels(w1: seq<Step>, w2: seq<Step>, env: Env)
    requires |w1| == |w2|
    ensures AllHold(EquivalenceQuery(w1, w2), env) <==>
      && InDomain(Valuation(Vars(0, Untagged), env))
      && Values(Chain(|w1|, Old), env) == Trace(w1, Valuation(Vars(0, Untagged), env))
      && Values(Chain(|w2|, New), env) == Trace(w2, Valuation(Vars(0, Untagged), env))
      && Valuation(Vars(|w1|, Old), env) != Valuation(Vars(|w2|, New), env)
  {
    QueryParts(w1, w2, env);
    DomainMeaning(Vars(0, Untagged), env);
    var ch1, ch2 := Chain(|w1|, Old), Chain(|w2|, New);
    assert ch1[0] == Vars(0, Untagged) && ch2[0] == Vars(0, Untagged);
    WorkflowMeaning(w1, ch1, env);
    WorkflowMeaning(w2, ch2, env);
    DiffersMeaning(Vars(|w1|, Old), Vars(|w2|, New), env);
  }

  /** The meaning of the solver's answer: the query is satisfiable if and
      only if some in-domain initial ticket makes the final tickets of the
      two workflows differ. */
  lemma QueryMeaning(w1: seq<Step>, w2: seq<Step>)
    requires |w1| == |w2|
    ensures Satisfiable(EquivalenceQuery(w1, w2))
      <==> exists s0 :: InDomain(s0) && Final(w1, s0) != Final(w2, s0)
  {
    if Satisfiable(EquivalenceQuery(w1, w2)) {
      var env: Env :| AllHold(EquivalenceQuery(w1, w2), env);
      QueryModels(w1, w2, env);
      var s0 := Valuation(Vars(0, Untagged), env);
      assert Values(Chain(|w1|, Old), env)[|w1|] == Valuation(Vars(|w1|, Old), env);
      assert Values(Chain(|w2|, New), env)[|w2|] == Valuation(Vars(|w2|, New), env);
      assert InDomain(s0) && Final(w1, s0) != Final(w2, s0);
    }
    if exists s0 :: InDomain(s0) && Final(w1, s0) != Final(w2, s0) {
      var s0 :| InDomain(s0) && Final(w1, s0) != Final(w2, s0);
      var env := CounterexampleIsModel(w1, w2, s0);
    }
  }

  /** An assignment that starts both chains at s0 and runs them along the
      workflows' traces is a model of the query when the finals differ. */
  lemma TracesAreModel(w1: seq<Step>, w2: seq<Step>, s0: Ticket, env: Env)
    requires |w1| == |w2|
    requires InDomain(s0) && Final(w1, s0) != Final(w2, s0)
    requires Values(Chain(|w1|, Old), env) == Trace(w1, s0)
    requires Values(Chain(|w2|, New), env) == Trace(w2, s0)
    ensures AllHold(EquivalenceQuery(w1, w2), env)
  {
    assert Values(Chain(|w1|, Old), env)[0] == Valuation(Vars(0, Untagged), env);
    assert Values(Chain(|w1|, Old), env)[|w1|] == Valuation(Vars(|w1|, Old), env);
    assert Values(Chain(|w2|, New), env)[|w2|] == Valuation(Vars(|w2|, New), env);
    QueryModels(w1, w2, env);
  }

  /** The assignment that gives every symbol its value along two traces
      from s0: the old workflow's tr1 and the new workflow's tr2. */
  lemma TraceAssignment(s0: Ticket, tr1: seq<Ticket>, tr2: seq<Ticket>) returns (env: Env)
    requires |tr1| > 0 && tr1[0] == s0 && |tr2| > 0 && tr2[0] == s0
    ensures Values(Chain(|tr1| - 1, Old), env) == tr1
    ensures Values(Chain(|tr2| - 1, New), env) == tr2
  {
    assert OwnsStates(Old, s0, tr1, tr1, tr2) && OwnsStates(New, s0, tr2, tr1, tr2);
    TraceEnvValues(s0, tr1, tr2, Old, tr1);
    TraceEnvValues(s0, tr1, tr2, New, tr2);
    env := TraceEnv(s0, tr1, tr2);
  }

  /** An initial ticket on which the workflows differ yields a model, one
      whose symbols follow both workflows' traces from that ticket. */
  lemma CounterexampleIsModel(w1: seq<Step>, w2: seq<Step>, s0: Ticket) returns (env: Env)
    requires |w1| == |w2|
    requires InDomain(s0) && Final(w1, s0) != Final(w2, s0)
    ensures AllHold(EquivalenceQuery(w1, w2), env)
    ensures Values(Chain(|w1|, Old), env) == Trace(w1, s0)
    ensures Values(Chain(|w2|, New), env) == Trace(w2, s0)
  {
    env := TraceAssignment(s0, Trace(w1, s0), Trace(w2, s0));
    TracesAreModel(w1, w2, s0, env);
  }

  /** The script's query is satisfiable: the two workflows are not
      equivalent on the domain box. */
  lemma WorkflowsNotEquivalent()
    ensures Satisfiable(EquivalenceQuery(OldWorkflow, NewWorkflow))
  {
    QueryMeaning(OldWorkflow, NewWorkflow);
    Counterexample();
  }

  /** A workflow compared with itself gives an unsatisfiable query. */
  lemma SameWorkflowEquivalent(w: seq<Step>)
    ensures !Satisfiable(EquivalenceQuery(w, w))
  {
    QueryMeaning(w, w);
  }

  /** Any two workflows' final tickets from the same start agree on a and b. */
  lemma FinalsAgreeOnAB(w1: seq<Step>, w2: seq<Step>, s0: Ticket)
    ensures Final(w1, s0).a == Final(w2, s0).a && Final(w1, s0).b == Final(w2, s0).b
  {
    FinalKeepsAB(w1, s0);
    FinalKeepsAB(w2, s0);
  }
}

=== FILE: presentation_utils.dfy ===
/** Solution enumeration: after the solver has produced a model, assert a
    blocking clause that only assignments differing from that model on
    some constant satisfy, so that the next check yields a new solution. */
module PresentationUtils {
  import opened Symbolic
  import opened Solving

  /** One disjunct `f() != m[f]` per declaration of arity 0, in the order
      the model lists them; declarations of positive arity contribute
      nothing. */
  function Disequalities(ds: seq<Decl>): seq<Formula>
  {
    if ds == [] then []
    else
      (if ds[0].arity == 0 then [Ne(Sym(ds[0].name), Lit(ds[0].value))] else [])
      + Disequalities(ds[1..])
  }

  /** The blocking clause built from model m. */
  function BlockingClause(m: Model): Formula
  {
    Or(Disequalities(m.decls))
  }

  /** Some constant of ds has, under env, a value other than its own. */
  predicate DiffersOnSomeConstant(env: Env, ds: seq<Decl>)
  {
    exists j | 0 <= j < |ds| && ds[j].arity == 0 :: env(ds[j].name) != ds[j].value
  }

  lemma {:induction false} DisequalitiesMeaning(ds: seq<Decl>, env: Env)
    ensures Holds(Or(Disequalities(ds)), env) <==> DiffersOnSomeConstant(env, ds)
  {
    if ds != [] {
      var head := if ds[0].arity == 0 then [Ne(Sym(ds[0].name), Lit(ds[0].value))] else [];
      var tail := Disequalities(ds[1..]);
      assert Disequalities(ds) == head + tail;
      AnyHoldsAppend(head, tail, env);
      DisequalitiesMeaning(ds[1..], env);
      assert Holds(Or(head), env) <==> ds[0].arity == 0 && env(ds[0].name) != ds[0].value by {
        if ds[0].arity == 0 {
          assert head[0] == Ne(Sym(ds[0].name), Lit(ds[0].value));
        }
      }
      if DiffersOnSomeConstant(env, ds[1..]) {
        var j :| 0 <= j < |ds[1..]| && ds[1..][j].arity == 0 && env(ds[1..][j].name) != ds[1..][j].value;
        assert ds[j + 1] == ds[1..][j];
      }
      if DiffersOnSomeConstant(env, ds) && !(ds[0].arity == 0 && env(ds[0].name) != ds[0].value) {
        var j :| 0 <= j < |ds| && ds[j].arity == 0 && env(ds[j].name) != ds[j].value;
        assert ds[1..][j - 1] == ds[j];
      }
    }
  }

  /** The clause excludes exactly the assignments that agree with m on
      every constant: it holds if and only if some constant differs. */
  lemma BlockingClauseExcludesExactly(m: Model, env: Env)
    ensures Holds(BlockingClause(m), env) <==> !Agrees(env, m)
  {
    DisequalitiesMeaning(m.decls, env);
  }

  /** In particular the clause is false under the model it was built from. */
  lemma BlockingClauseRejectsItsModel(m: Model)
    requires DistinctConstants(m)
    ensures !Holds(BlockingClause(m), AsEnv(m))
  {
    AsEnvAgrees(m);
    BlockingClauseExcludesExactly(m, AsEnv(m));
  }

  lemma {:induction false} DisequalitiesAppend(ds: seq<Decl>, es: seq<Decl>)
    ensures Disequalities(ds + es) == Disequalities(ds) + Disequalities(es)
  {
    if ds != [] {
      assert (ds + es)[1..] == ds[1..] + es;
      DisequalitiesAppend(ds[1..], es);
    } else {
      assert ds + es == es;
    }
  }

  /** A declaration of positive arity, wherever the model lists it, adds
      no disjunct: only constants are compared. */
  lemma OnlyConstantsContribute(ds: seq<Decl>, d: Decl, es: seq<Decl>)
    requires d.arity > 0
    ensures BlockingClause(Model(ds + [d] + es)) == BlockingClause(Model(ds + es))
  {
    DisequalitiesAppend(ds + [d], es);
    DisequalitiesAppend(ds, [d]);
    DisequalitiesAppend(ds, es);
    assert Disequalities([d]) == [];
  }

  /** The model lists at least one declaration of arity 0. */
  predicate HasConstant(m: Model)
  {
    exists i | 0 <= i < |m.decls| :: m.decls[i].arity == 0
  }

  /** The comprehension yields no disjunct exactly when the model lists no
      constant. */
  lemma {:induction false} NoDisequalitiesIffNoConstants(ds: seq<Decl>)
    ensures Disequalities(ds) == [] <==> !HasConstant(Model(ds))
  {
    if ds != [] {
      NoDisequalitiesIffNoConstants(ds[1..]);
      if HasConstant(Model(ds[1..])) {
        var i :| 0 <= i < |ds[1..]| && ds[1..][i].arity == 0;
        assert ds[i + 1].arity == 0;
      }
      if HasConstant(Model(ds)) && ds[0].arity != 0 {
        var i :| 0 <= i < |ds| && ds[i].arity == 0;
        assert ds[1..][i - 1].arity == 0;
      }
    }
  }

  /** force_new_solution: m is the model the solver returned for its last
      check. When m has a constant, the blocking clause is appended to the
      solver's constraints. When it has none, `Or` of the empty list has no
      expression to take its context from and raises, so nothing is added;
      ok reports which of the two happened. */
  method ForceNewSolution(s: Solver, m: Model) returns (ok: bool)
    modifies s
    ensures ok <==> HasConstant(m)
    ensures ok ==> s.assertions == old(s.assertions) + [BlockingClause(m)]
    ensures !ok ==> s.assertions == old(s.assertions)
  {
    var disjuncts := Disequalities(m.decls);
    NoDisequalitiesIffNoConstants(m.decls);
    if disjuncts == [] {
      ok := false;
    } else {
      s.Add([Or(disjuncts)]);
      ok := true;
    }
  }

  /** After the call, the models of the constraint set are exactly the
      models of the old constraints that differ from m on some constant. */
  lemma ModelsAfterBlocking(fs: seq<Formula>, m: Model, env: Env)
    ensures AllHold(fs + [BlockingClause(m)], env) <==> AllHold(fs, env) && !Agrees(env, m)
  {
    AllHoldAppend(fs, [BlockingClause(m)], env);
    BlockingClauseExcludesExactly(m, env);
    assert AllHold([BlockingClause(m)], env) <==> Holds(BlockingClause(m), env) by {
      assert [BlockingClause(m)][0] == BlockingClause(m);
    }
  }

  /** Enumeration makes progress: a model found after blocking m is not m. */
  lemma NextSolutionIsNew(fs: seq<Formula>, m: Model)
    requires DistinctConstants(m)
    ensures !AllHold(fs + [BlockingClause(m)], AsEnv(m))
  {
    AsEnvAgrees(m);
    ModelsAfterBlocking(fs, m, AsEnv(m));
  }
}

=== FILE: simple_behaviour.dfy ===
/** The two-rule chain: a ticket with fields a and b passes through rule 1
    (if a > 5 then b := b + 5) and then rule 2 (if a > 6 and b >= 10 then
    a := a + b). The script asks the solver whether some initial ticket
    with a in [0, 10] and b in [0, 5] ends with a = 17. The lemmas prove
    what the constraints mean and what the answer is: exactly one initial
    ticket, (7, 5), gets there. */
module SimpleBehaviour {
  import opened Symbolic
  import opened Solving

  // ---------------------------------------------------------------------
  // The rules, concretely

  datatype Ticket = Ticket(a: int, b: int)

  datatype Rule = Rule1 | Rule2

  predicate Fires(r: Rule, s: Ticket)
  {
    match r
    case Rule1 => s.a > 5
    case Rule2 => s.a > 6 && s.b >= 10
  }

  function Act(r: Rule, s: Ticket): Ticket
  {
    match r
    case Rule1 => s.(b := s.b + 5)
    case Rule2 => s.(a := s.a + s.b)
  }

  /** One rule application: the action if the condition holds, otherwise
      the ticket is left as it is. */
  function Next(r: Rule, s: Ticket): Ticket
  {
    if Fires(r, s) then Act(r, s) else s
  }

  /** The ticket after the whole chain, rule 1 then rule 2. */
  function Outcome(s0: Ticket): Ticket
  {
    Next(Rule2, Next(Rule1, s0))
  }

  /** The initial tickets the script considers. */
  predicate InDomain(s: Ticket)
  {
    0 <= s.a <= 10 && 0 <= s.b <= 5
  }

  // ---------------------------------------------------------------------
  // The constraint builders, symbolically

  /** A state dictionary: the symbols standing for a and b at one time. */
  datatype SymTicket = SymTicket(a: Term, b: Term)

  /** The symbols a_t and b_t. */
  function Vars(t: nat): SymTicket
  {
    SymTicket(Sym(Name('a', t, Untagged)), Sym(Name('b', t, Untagged)))
  }

  function Valuation(s: SymTicket, env: Env): Ticket
  {
    Ticket(Eval(s.a, env), Eval(s.b, env))
  }

  function Condition(r: Rule, s: SymTicket): Formula
  {
    match r
    case Rule1 => Gt(s.a, Lit(5))
    case Rule2 => And([Gt(s.a, Lit(6)), Ge(s.b, Lit(10))])
  }

  /** The action relates the current state to the next: the assigned field
      gets its new value and the other field keeps its old one. */
  function Action(r: Rule, cur: SymTicket, next: SymTicket): Formula
  {
    match r
    case Rule1 => And([Eq(next.b, Plus(cur.b, Lit(5))), Eq(next.a, cur.a)])
    case Rule2 => And([Eq(next.a, Plus(cur.a, cur.b)), Eq(next.b, cur.b)])
  }

  function Unchanged(cur: SymTicket, next: SymTicket): Formula
  {
    And([Eq(next.a, cur.a), Eq(next.b, cur.b)])
  }

  function StepConstraint(r: Rule, cur: SymTicket, next: SymTicket): Formula
  {
    If(Condition(r, cur), Action(r, cur, next), Unchanged(cur, next))
  }

  function Domain(s: SymTicket): seq<Formula>
  {
    [Ge(s.a, Lit(0)), Le(s.a, Lit(10)), Ge(s.b, Lit(0)), Le(s.b, Lit(5))]
  }

  /** Everything the script asserts, in the order it asserts it. */
  function ReachabilityQuery(): seq<Formula>
  {
    Domain(Vars(0))
    + [StepConstraint(Rule1, Vars(0), Vars(1)), StepConstraint(Rule2, Vars(1), Vars(2))]
    + [Eq(Vars(2).a, Lit(17))]
  }

  /** The module body: the states for t = 0, 1, 2, the domain, the two
      guarded steps and the goal a_2 == 17. */
  method ReachabilityCheck() returns (s: Solver)
    ensures fresh(s)
    ensures s.assertions == ReachabilityQuery()
  {
    var states := map[0 := Vars(0), 1 := Vars(1), 2 := Vars(2)];
    s := new Solver();
    s.Add([Ge(states[0].a, Lit(0)), Le(states[0].a, Lit(10))]);
    s.Add([Ge(states[0].b, Lit(0)), Le(states[0].b, Lit(5))]);
    s.Add([StepConstraint(Rule1, states[0], states[1])]);
    s.Add([StepConstraint(Rule2, states[1], states[2])]);
    s.Add([Eq(states[2].a, Lit(17))]);
  }

  // ---------------------------------------------------------------------
  // What the constraints mean

  lemma ConditionMeaning(r: Rule, s: SymTicket, env: Env)
    ensures Holds(Condition(r, s), env) <==> Fires(r, Valuation(s, env))
  {
    match r
    case Rule1 =>
    case Rule2 =>
      var cs := [Gt(s.a, Lit(6)), Ge(s.b, Lit(10))];
      assert Holds(And(cs), env) <==> Holds(cs[0], env) && Holds(cs[1], env);
  }

  lemma ActionMeaning(r: Rule, cur: SymTicket, next: SymTicket, env: Env)
    ensures Holds(Action(r, cur, next), env) <==> Valuation(next, env) == Act(r, Valuation(cur, env))
  {
    match r
    case Rule1 =>
      var cs := [Eq(next.b, Plus(cur.b, Lit(5))), Eq(next.a, cur.a)];
      assert Action(r, cur, next) == And(cs);
      assert Holds(And(cs), env) <==> Holds(cs[0], env) && Holds(cs[1], env);
      assert Eval(Plus(cur.b, Lit(5)), env) == Eval(cur.b, env) + 5;
      assert Act(r, Valuation(cur, env)) == Ticket(Eval(cur.a, env), Eval(cur.b, env) + 5);
    case Rule2 =>
      var cs := [Eq(next.a, Plus(cur.a, cur.b)), Eq(next.b, cur.b)];
      assert Holds(And(cs), env) <==> Holds(cs[0], env) && Holds(cs[1], env);
      assert Act(r, Valuation(cur, env)) == Ticket(Eval(cur.a, env) + Eval(cur.b, env), Eval(cur.b, env));
  }

  lemma UnchangedMeaning(cur: SymTicket, next: SymTicket, env: Env)
    ensures Holds(Unchanged(cur, next), env) <==> Valuation(next, env) == Valuation(cur, env)
  {
    var cs := [Eq(next.a, cur.a), Eq(next.b, cur.b)];
    assert Holds(And(cs), env) <==> Holds(cs[0], env) && Holds(cs[1], env);
  }

  /** A guarded step holds of two states exactly when the second is the
      rule's application to the first. */
  lemma StepMeaning(r: Rule, cur: SymTicket, next: SymTicket, env: Env)
    ensures Holds(StepConstraint(r, cur, next), env) <==> Valuation(next, env) == Next(r, Valuation(cur, env))
  {
    ConditionMeaning(r, cur, env);
    ActionMeaning(r, cur, next, env);
    UnchangedMeaning(cur, next, env);
  }

  lemma DomainMeaning(s: SymTicket, env: Env)
    ensures AllHold(Domain(s), env) <==> InDomain(Valuation(s, env))
  {
    var ds := Domain(s);
    if InDomain(Valuation(s, env)) {
      forall i | 0 <= i < |ds| ensures Holds(ds[i], env) {}
    }
    if AllHold(ds, env) {
      assert Holds(ds[0], env) && Holds(ds[1], env) && Holds(ds[2], env) && Holds(ds[3], env);
    }
  }

  /** A model of the query is an in-domain initial ticket, the two rule
      applications from it, and a final a of 17. */
  lemma QueryModels(env: Env)
    ensures AllHold(ReachabilityQuery(), env) <==>
      && InDomain(Valuation(Vars(0), env))
      && Valuation(Vars(1), env) == Next(Rule1, Valuation(Vars(0), env))
      && Valuation(Vars(2), env) == Next(Rule2, Valuation(Vars(1), env))
      && Valuation(Vars(2), env).a == 17
  {
    var steps := [StepConstraint(Rule1, Vars(0), Vars(1)), StepConstraint(Rule2, Vars(1), Vars(2))];
    var goal := [Eq(Vars(2).a, Lit(17))];
    AllHoldAppend(Domain(Vars(0)) + steps, goal, env);
    AllHoldAppend(Domain(Vars(0)), steps, env);
    assert AllHold(steps, env) <==> Holds(steps[0], env) && Holds(steps[1], env);
    assert AllHold(goal, env) <==> Holds(goal[0], env);
    DomainMeaning(Vars(0), env);
    StepMeaning(Rule1, Vars(0), Vars(1), env);
    StepMeaning(Rule2, Vars(1), Vars(2), env);
  }

  /** The value of a symbol when a_t and b_t hold the fields of the t-th
      of the tickets s0, s1, s2. */
  function TableValue(s0: Ticket, s1: Ticket, s2: Ticket, n: Name): int
  {
    var s := if n.time == 0 then s0 else if n.time == 1 then s1 else s2;
    if n.field == 'a' then s.a else s.b
  }

  function TableEnv(s0: Ticket, s1: Ticket, s2: Ticket): Env
  {
    n => TableValue(s0, s1, s2, n)
  }

  lemma TableAt(s0: Ticket, s1: Ticket, s2: Ticket, t: nat, s: Ticket)
    requires s == (if t == 0 then s0 else if t == 1 then s1 else s2)
    ensures Valuation(Vars(t), TableEnv(s0, s1, s2)) == s
  {
  }

  lemma TableAssignment(s0: Ticket, s1: Ticket, s2: Ticket) returns (env: Env)
    ensures forall t: nat | t <= 2 :: Valuation(Vars(t), env) == if t == 0 then s0 else if t == 1 then s1 else s2
  {
    env := TableEnv(s0, s1, s2);
    forall t: nat | t <= 2
      ensures Valuation(Vars(t), env) == if t == 0 then s0 else if t == 1 then s1 else s2
    {
      TableAt(s0, s1, s2, t, if t == 0 then s0 else if t == 1 then s1 else s2);
    }
  }

  /** The meaning of the solver's answer: sat if and only if some initial
      ticket in the domain ends the chain with a = 17. */
  lemma QueryMeaning()
    ensures Satisfiable(ReachabilityQuery()) <==> exists s0 :: InDomain(s0) && Outcome(s0).a == 17
  {
    if Satisfiable(ReachabilityQuery()) {
      var env: Env :| AllHold(ReachabilityQuery(), env);
      QueryModels(env);
      assert InDomain(Valuation(Vars(0), env)) && Outcome(Valuation(Vars(0), env)).a == 17;
    }
    if exists s0 :: InDomain(s0) && Outcome(s0).a == 17 {
      var s0 :| InDomain(s0) && Outcome(s0).a == 17;
      var env := TableAssignment(s0, Next(Rule1, s0), Outcome(s0));
      assert Valuation(Vars(0), env) == s0 && Valuation(Vars(1), env) == Next(Rule1, s0);
      assert Valuation(Vars(2), env) == Outcome(s0);
      QueryModels(env);
    }
  }

  /** When rule 2 does not fire, the final a is the initial a, which the
      domain keeps at most 10: the goal is out of reach. */
  lemma Rule2Idle(s0: Ticket)
    requires InDomain(s0) && !Fires(Rule2, Next(Rule1, s0))
    ensures Outcome(s0).a == s0.a <= 10
  {
  }

  /** a = 17 can only be reached with both rules firing: rule 1 must bring
      b up to 10 so that rule 2 can add it to a. */
  lemma BothRulesFire(s0: Ticket)
    requires InDomain(s0) && Outcome(s0).a == 17
    ensures Fires(Rule1, s0) && Fires(Rule2, Next(Rule1, s0))
  {
  }

  /** Exactly one initial ticket in the domain reaches a = 17. */
  lemma UniqueWitness(s0: Ticket)
    ensures InDomain(s0) && Outcome(s0).a == 17 <==> s0 == Ticket(7, 5)
  {
    if InDomain(s0) && Outcome(s0).a == 17 {
      BothRulesFire(s0);
      assert Next(Rule1, s0) == Ticket(s0.a, s0.b + 5);
    }
  }

  /** The solver answers sat, and every model it can return starts at
      a_0 = 7, b_0 = 5 and passes through (7, 10) to (17, 10). */
  lemma QueryAnswer()
    ensures Satisfiable(ReachabilityQuery())
    ensures forall env: Env | AllHold(ReachabilityQuery(), env) ::
      && Valuation(Vars(0), env) == Ticket(7, 5)
      && Valuation(Vars(1), env) == Ticket(7, 10)
      && Valuation(Vars(2), env) == Ticket(17, 10)
  {
    UniqueWitness(Ticket(7, 5));
    QueryMeaning();
    forall env: Env | AllHold(ReachabilityQuery(), env)
      ensures Valuation(Vars(0), env) == Ticket(7, 5)
      ensures Valuation(Vars(1), env) == Ticket(7, 10)
      ensures Valuation(Vars(2), env) == Ticket(17, 10)
    {
      QueryModels(env);
      UniqueWitness(Valuation(Vars(0), env));
    }
  }
}

=== FILE: solving.dfy ===
/** The solver session the scripts talk to, reduced to what they use of it:
    the list of asserted constraints that `add` extends, and the models it
    hands back. Deciding satisfiability is not modelled; the meaning of a
    `sat` answer is Symbolic.Satisfiable. */
module Solving {
  import opened Symbolic

  /** One solver instance: the constraints asserted into it, in order.
      Constraints accumulate; nothing is ever retracted. */
  class Solver {
    var assertions: seq<Formula>

    constructor ()
      ensures assertions == []
    {
      assertions := [];
    }

    /** The solver's variadic `add`: asserts each argument, in order. */
    method Add(fs: seq<Formula>)
      modifies this
      ensures assertions == old(assertions) + fs
    {
      assertions := assertions + fs;
    }
  }

  /** A declaration interpreted by a model: its name, its arity and, for a
      constant (arity 0), its value. For a declaration of positive arity
      `value` stands for the default entry of its function table; nothing
      here reads it. */
  datatype Decl = Decl(name: Name, arity: nat, value: int)

  /** A model as the solver returns it: the declarations it interprets,
      in the order it lists them. */
  datatype Model = Model(decls: seq<Decl>)

  /** env gives every constant of m the value m gives it. */
  predicate Agrees(env: Env, m: Model)
  {
    forall i | 0 <= i < |m.decls| && m.decls[i].arity == 0 :: env(m.decls[i].name) == m.decls[i].value
  }

  /** Each constant name is declared at most once in m, as in every model
      the solver produces. */
  predicate DistinctConstants(m: Model)
  {
    forall i, j | 0 <= i < j < |m.decls| && m.decls[i].arity == 0 && m.decls[j].arity == 0 ::
      m.decls[i].name != m.decls[j].name
  }

  /** Evaluating a symbol in m: the value of the first constant of that
      name, and 0 for a symbol m does not mention (model completion). */
  function ValueIn(ds: seq<Decl>, n: Name): int
  {
    if ds == [] then 0
    else if ds[0].arity == 0 && ds[0].name == n then ds[0].value
    else ValueIn(ds[1..], n)
  }

  /** The assignment a model stands for. */
  function AsEnv(m: Model): Env
  {
    n => ValueIn(m.decls, n)
  }

  /** A model with distinct constant names agrees with itself. */
  lemma {:induction false} AsEnvAgrees(m: Model)
    requires DistinctConstants(m)
    ensures Agrees(AsEnv(m), m)
    decreases |m.decls|
  {
    if m.decls != [] {
      var rest := Model(m.decls[1..]);
      assert DistinctConstants(rest) by {
        forall i, j | 0 <= i < j < |rest.decls| && rest.decls[i].arity == 0 && rest.decls[j].arity == 0
          ensures rest.decls[i].name != rest.decls[j].name
        {
          assert rest.decls[i] == m.decls[i + 1] && rest.decls[j] == m.decls[j + 1];
        }
      }
      AsEnvAgrees(rest);
      forall i | 0 <= i < |m.decls| && m.decls[i].arity == 0
        ensures AsEnv(m)(m.decls[i].name) == m.decls[i].value
      {
        if i > 0 {
          assert m.decls[i] == rest.decls[i - 1];
          if m.decls[0].arity == 0 {
            assert m.decls[0].name != m.decls[i].name;
          }
        }
      }
    }
  }
}

=== FILE: symbolic.dfy ===
/** The fragment of the solver's term language that the rule-engine scripts
    build: integer symbols, integer literals, addition, the comparisons
    ==, !=, >, >= and <=, and the boolean combinators And, Or and If.
    A formula is given its meaning by evaluating it under an assignment of
    integers to symbols; an assignment under which every asserted formula
    holds is what the solver calls a model. */
module Symbolic {

  /** The suffix of a symbol's name: none (`a_0`, `a_1`), or the workflow
      that owns it (`a_1_old`, `a_1_new`). */
  datatype Tag = Untagged | Old | New

  /** A symbol's name, kept as its parts: the state field it stands for,
      the time index, and the suffix. */
  datatype Name = Name(field: char, time: nat, tag: Tag)

  /** A candidate model: an integer for every symbol. */
  type Env = Name -> int

  datatype Term =
    | Lit(k: int)
    | Sym(name: Name)
    | Plus(lhs: Term, rhs: Term)

  function Eval(t: Term, env: Env): int
  {
    match t
    case Lit(k) => k
    case Sym(n) => env(n)
    case Plus(l, r) => Eval(l, env) + Eval(r, env)
  }

  datatype Formula =
    | Eq(lhs: Term, rhs: Term)
    | Ne(lhs: Term, rhs: Term)
    | Gt(lhs: Term, rhs: Term)
    | Ge(lhs: Term, rhs: Term)
    | Le(lhs: Term, rhs: Term)
    | And(conjuncts: seq<Formula>)
    | Or(disjuncts: seq<Formula>)
    | If(cond: Formula, thn: Formula, els: Formula)

  /** Truth of a formula under an assignment. An empty And is true and an
      empty Or is false, as in the solver. */
  predicate Holds(f: Formula, env: Env)
  {
    match f
    case Eq(l, r) => Eval(l, env) == Eval(r, env)
    case Ne(l, r) => Eval(l, env) != Eval(r, env)
    case Gt(l, r) => Eval(l, env) > Eval(r, env)
    case Ge(l, r) => Eval(l, env) >= Eval(r, env)
    case Le(l, r) => Eval(l, env) <= Eval(r, env)
    case And(fs) => forall i | 0 <= i < |fs| :: Holds(fs[i], env)
    case Or(fs) => exists i | 0 <= i < |fs| :: Holds(fs[i], env)
    case If(c, t, e) => if Holds(c, env) then Holds(t, env) else Holds(e, env)
  }

  /** Every formula of a constraint list holds: env is a model of fs. */
  predicate AllHold(fs: seq<Formula>, env: Env)
  {
    forall i | 0 <= i < |fs| :: Holds(fs[i], env)
  }

  /** What a `sat` answer of the solver means for a constraint list. */
  ghost predicate Satisfiable(fs: seq<Formula>)
  {
    exists env: Env :: AllHold(fs, env)
  }

  lemma AllHoldAppend(fs: seq<Formula>, gs: seq<Formula>, env: Env)
    ensures AllHold(fs + gs, env) <==> AllHold(fs, env) && AllHold(gs, env)
  {
    if AllHold(fs, env) && AllHold(gs, env) {
      forall i | 0 <= i < |fs + gs| ensures Holds((fs + gs)[i], env) {
        if i >= |fs| {
          assert (fs + gs)[i] == gs[i - |fs|];
        }
      }
    }
    if AllHold(fs + gs, env) {
      forall i | 0 <= i < |fs| ensures Holds(fs[i], env) {
        assert (fs + gs)[i] == fs[i];
      }
      forall i | 0 <= i < |gs| ensures Holds(gs[i], env) {
        assert (fs + gs)[|fs| + i] == gs[i];
      }
    }
  }

  lemma AnyHoldsAppend(fs: seq<Formula>, gs: seq<Formula>, env: Env)
    ensures Holds(Or(fs + gs), env) <==> Holds(Or(fs), env) || Holds(Or(gs), env)
  {
    if Holds(Or(fs + gs), env) {
      var i :| 0 <= i < |fs + gs| && Holds((fs + gs)[i], env);
      if i < |fs| {
        assert fs[i] == (fs + gs)[i];
      } else {
        assert gs[i - |fs|] == (fs + gs)[i];
      }
    }
    if Holds(Or(fs), env) {
      var i :| 0 <= i < |fs| && Holds(fs[i], env);
      assert (fs + gs)[i] == fs[i];
    }
    if Holds(Or(gs), env) {
      var i :| 0 <= i < |gs| && Holds(gs[i], env);
      assert (fs + gs)[|fs| + i] == gs[i];
    }
  }

  /** A constraint list shaped like an equivalence query: side conditions,
      one conjunction of two blocks of step constraints, and a goal. */
  lemma QueryShape(side: seq<Formula>, steps1: seq<Formula>, steps2: seq<Formula>, goal: Formula, env: Env)
    ensures AllHold(side + [And(steps1 + steps2)] + [goal], env) <==>
      AllHold(side, env) && AllHold(steps1, env) && AllHold(steps2, env) && Holds(goal, env)
  {
    var conj := And(steps1 + steps2);
    assert side + [conj] + [goal] == side + ([conj] + [goal]);
    AllHoldAppend(side, [conj] + [goal], env);
    AllHoldAppend([conj], [goal], env);
    assert AllHold([conj], env) <==> Holds(conj, env) by {
      assert [conj][0] == conj;
    }
    assert AllHold([goal], env) <==> Holds(goal, env) by {
      assert [goal][0] == goal;
    }
    AllHoldAppend(steps1, steps2, env);
  }
}
